=== FILE: README.md ===
# GitMatch name matching, modelled in Dafny

GitMatch screens names pasted by a user against sanctions lists. It matches them
fuzzily against the OFAC list. Its core is a short pipeline in `app.py`:

- `normalize` canonicalises a name. It drops punctuation, lowercases, and collapses whitespace to single spaces.
- `get_top_matches` normalises the query and every list entry, and asks a fuzzy-matching library for the `n` best-scoring entries. It reports each one as the original, unnormalised entry with an integer score.
- The results loop keeps only the matches whose score reaches the threshold. For each entered name it renders one display string, `"name (score), name (score)"`.

The FCDO list loader (`fcdo_loader.py`) takes the third cell of every
spreadsheet row that has one.

The model has five modules:

| file | module | models |
|---|---|---|
| `strings.dfy` | `Strings` | `sep.join`, `str(int)` rendering, the subsequence relation; `Strings.ParseInt` and `Report.ParseMatch` are not in the program and exist only to state the round trips |
| `normalize.dfy` | `Normalizer` | `normalize`, with Python's whitespace, word-character and lowercasing rules |
| `matching.dfy` | `Matching` | `get_top_matches`; the scorer is a parameter and the library's top-`n` extraction is an abstract specification |
| `report.dfy` | `Report` | the threshold filter, match-string rendering and the results loop |
| `fcdo.dfy` | `Fcdo` | the row loop of `load_fcdo_names` |

The similarity scorer (the library's token-sort ratio) is not modelled. It is a
parameter `score: (string, string) -> Percent`: any total function into
[0, 100]. The library's top-`n` extraction is stated as `Matching.IsTopSelection`:

- as many positions as asked for, or all there are;
- each position is valid, and none is repeated;
- positions are listed from the highest score down;
- no position left out scores higher than one that was chosen.

The model realises that specification with a stable ranking, which puts the higher score first and, among equal scores, the earlier entry first. It proves the ranking meets the specification.

Character classes follow Python's `str` semantics:

- Whitespace is exactly the set `str.isspace()` accepts.
- `\w` and `str.lower()` are exact for code points up to U+00FF.
- Above U+00FF, every non-space character counts as a word character and lowercases to itself.

## Model

| member | source | states |
|---|---|---|
| Normalizer.LowerAll | app.py:22 | `lower()` leaves nothing upper-case and keeps every character in place and in its class. Each capital becomes the small letter whose upper case is that capital, and every other character is unchanged |
| Normalizer.ToLower | app.py:22 | lowercasing yields no upper-case letter, leaves every other character alone, and never turns a word character or whitespace into anything else. A capital becomes a different character that `ToUpper` (`str.upper()` on these letters) maps back to that capital |
| Normalizer.StripNonWord | app.py:21 | the regex substitution leaves only word characters and whitespace, and what it leaves is a subsequence of the input, in the original order |
| Normalizer.StripNonWordCounts | app.py:21 | every word or whitespace character survives the substitution as often as it occurs in the input, and every other character is removed |
| Normalizer.Split | app.py:22 | `split()` yields non-empty tokens free of whitespace, made only of characters of the input |
| Normalizer.SplitConcat | app.py:22 | `split()` loses nothing but whitespace: the tokens, run together, are exactly the non-whitespace characters of the text, in order, whatever whitespace (tabs, runs, leading or trailing blanks) separates them |
| Normalizer.TokenLengthUnique | app.py:22 | a token ends at the first whitespace character or at the end of the text, and nowhere else |
| Normalizer.SplitToken | app.py:22 | a token followed by whitespace (or by nothing) splits off as one token |
| Normalizer.SplitSkipsBlank | app.py:22 | whitespace in front of a text, of any length and kind, does not change its tokens |
| Normalizer.SplitInterleave | app.py:22 | tokens separated by whitespace runs of any length and kind (tabs, newlines, several spaces), with any whitespace or none at either end, split back into exactly those tokens, in order |
| Normalizer.SplitJoin | app.py:22-23 | splitting the single-space join of tokens gives back exactly those tokens |
| Normalizer.JoinSingleSpaced | app.py:23 | joining tokens with single spaces leaves no leading, trailing or doubled space |
| Normalizer.JoinChars | app.py:23 | every character of the joined string is a space or a character of one of the tokens |
| Normalizer.SingleSpacedTail | app.py:22-23 | in a single-spaced string, what follows a space is again single-spaced and starts with a non-space |
| Normalizer.JoinSplitSingleSpaced | app.py:22-23 | a single-spaced string is the single-space join of its own tokens |
| Normalizer.TokenLengthLower | app.py:22 | lowercasing does not move token boundaries |
| Normalizer.SplitLower | app.py:22 | the tokens of the lowercased text are the lowercased tokens, in order |
| Normalizer.JoinNonSpace | app.py:23 | joining tokens with single spaces adds nothing but spaces: without them, the joined string is the tokens run together |
| Normalizer.LowerNonSpace | app.py:22 | lowercasing and dropping whitespace can be done in either order |
| Normalizer.StripNonSpace | app.py:21 | after the substitution, the non-whitespace characters left are exactly the word characters of the input, in order |
| Normalizer.Normalize | app.py:19-23 | apart from the spaces between tokens, the result is exactly the input's word characters, lowercased, in their original order: no word character is lost, and nothing else is kept |
| Normalizer.NormalizeIsNormalForm | app.py:19-23 | the result has no leading, trailing or doubled space and uses no whitespace other than the ASCII space. It has nothing upper-case, and nothing outside the model's word and space classes survives (these classes are exact up to U+00FF) |
| Normalizer.StripKeepsClean | app.py:21 | text made only of word characters and whitespace passes the substitution unchanged |
| Normalizer.NormalizeFixedPoints | app.py:19-23 | a string is left unchanged by `normalize` if and only if it is in that normal form |
| Normalizer.NormalizeIdempotent | app.py:19-23 | normalising twice gives the same result as normalising once |
| Normalizer.NormalizeTokens | app.py:21-23 | the tokens of the result are the lowercased whitespace-separated tokens of the punctuation-stripped text, in their original order |
| Normalizer.SplitEmpty | app.py:22 | `split()` yields no token exactly when the text is all whitespace |
| Normalizer.StripNoWord | app.py:21 | the substitution leaves only whitespace exactly when the text had no word character |
| Normalizer.NormalizeEmpty | app.py:19-23 | the result is the empty string exactly when the text has no word character, in particular for empty and whitespace-only names |
| Matching.Insert | app.py:28 | inserting a later position into a ranking keeps it ranked (higher score first, earlier first on ties) and adds exactly that position |
| Matching.Ranking | app.py:28 | the ranking of all positions lists each position exactly once, in ranking order |
| Matching.TopIndices | app.py:28 | the first `n` positions of the ranking are a valid top-`n` selection: right length, distinct valid positions, scores non-increasing, no left-out position scoring higher than a chosen one |
| Matching.TopPositions | app.py:26-28 | the positions `process.extract` picks are a valid top-`n` selection by the score of the normalised query against each normalised choice |
| Matching.GetTopMatches | app.py:25-30 | returns `min(n, len(choices))` matches, so at most `n` and none for an empty list. Each is an original, unnormalised choice `choices[i]` with the score of the normalised query against the normalised `choices[i]`, in [0, 100]. Scores are non-increasing, and the underlying positions form a valid top-`n` selection |
| Matching.TopMatchesAreChoices | app.py:27-30 | every reported match is an original, unnormalised choice paired with its own score against the query |
| Matching.TopMatchesAreBest | app.py:28-30 | no choice left out of the result scores higher than any reported match |
| Report.FilterByThreshold | app.py:62 | every kept match reaches the threshold, and the kept matches are a subsequence of the input, in their original order |
| Report.FilterCount | app.py:62 | a match that reaches the threshold is kept as often as it occurs in the input, and one below the threshold is never kept |
| Report.FilterCounts | app.py:62 | the same count property, for every match at once |
| Report.FilterEmpty | app.py:62-63 | nothing survives the filter exactly when no match reaches the threshold |
| Report.FilterTwice | app.py:62 | filtering at a higher threshold equals filtering again what a lower threshold kept |
| Report.ThresholdMonotone | app.py:62 | raising the threshold keeps a subsequence of what the lower one kept, so never more matches |
| Strings.Join | app.py:23 | `sep.join(parts)` begins with its first part |
| Strings.JoinSnoc | app.py:64 | joining one more part appends the separator and that part to the joined string |
| Report.MatchString | app.py:63-66 | the row string is empty if and only if no match survived the filter |
| Report.MatchStringAppend | app.py:64 | the row string has one `"name (score)"` piece per surviving match, in order, separated by `", "` |
| Report.FormatMatch | app.py:64 | a rendered `"name (score)"` piece determines its match: `ParseMatch` reads the name and the integer score back exactly, even when the name contains parentheses |
| Strings.IntToString | app.py:64 | the decimal rendering of an integer is non-empty, starts with `-` exactly for negative values, and contains no parenthesis. It is canonical: no leading zero except in `"0"` itself, and none after the minus sign |
| Strings.IntToStringRoundTrip | app.py:64 | the decimal rendering of a score reads back as the same integer |
| Report.Strip | app.py:57 | `strip()` gives the empty string exactly for blank text, and otherwise a string that starts and ends with a non-whitespace character |
| Report.StripSlice | app.py:57 | `strip()` gives a contiguous piece of the text with only whitespace before and after it, so it removes exactly the leading and trailing whitespace |
| Report.HasInput | app.py:57 | the page has input exactly when some entry is text with a non-whitespace character; missing entries never count |
| Report.RowFor | app.py:60-66 | a name's row is empty exactly when none of its top three matches reaches the threshold |
| Report.Present | app.py:59 | `dropna()` never yields more strings than there are entries, and as many exactly when none is missing |
| Report.TextPositions | app.py:59 | the positions it lists are valid and each holds a text entry |
| Report.TextPositionsExact | app.py:59 | the listed positions are strictly increasing and include every text entry, so they are exactly the text positions, in order |
| Report.PresentAtPositions | app.py:59 | `dropna()` keeps exactly the text entries, in order: its `k`-th string is the text at the `k`-th text position |
| Report.TextPositionsAllText | app.py:59 | with no entry missing, the text positions are all positions, in order |
| Report.ResultColumnAsWritten | app.py:58-67 | the loop yields, in order, the row string of each name `dropna()` keeps, so as many strings as rows only when no entry is missing |
| Report.RenderScreenAsWritten | app.py:57-71 | as written, the hint appears exactly when there is no input, and a page with input fails to build its table exactly when some entry is missing |
| Report.AsWrittenCounterexample | app.py:59-68 | as written, a name followed by a missing entry makes the table's two columns differ in length |
| Report.ResultColumn | app.py:58-68 | corrected: one results string per entry of the `Names` column, `""` for a missing entry; the as-written column is this column with the missing entries' strings removed, in order |
| Report.RenderScreen | app.py:57-71 | corrected: the hint appears exactly when no entry has a non-whitespace character. Otherwise the table has one results string per entry: the entry's row string for text, `""` for a missing entry. It never fails on length |
| Report.AsWrittenColumnMatches | app.py:58-68 | when no entry is missing, the as-written results column equals the corrected one |
| Report.ScreenAgreesWithoutMissing | app.py:57-71 | when no entry is missing, the page as written and the corrected page are the same |
| Fcdo.RowsWithColumnC | fcdo_loader.py:9-10 | lists, in increasing order, exactly the positions of the rows with more than two cells |
| Fcdo.ColumnC | fcdo_loader.py:8-12 | the loader yields at most one name per row |
| Fcdo.ColumnCAtRows | fcdo_loader.py:8-12 | the names are the index-2 cells of exactly the rows with more than two cells, one per such row, in sheet order |
| Fcdo.LoadFcdoNames | fcdo_loader.py:8-12 | the loop returns one name per row with more than two cells, namely that row's index-2 cell, in sheet order |
| Fcdo.EmptySheet | fcdo_loader.py:8-12 | an empty sheet gives no names |
| Fcdo.ShortRowSkipped | fcdo_loader.py:10 | a row with two cells or fewer is skipped without error and changes nothing |
| Fcdo.LongRowAppended | fcdo_loader.py:10-11 | a row with more than two cells adds exactly its index-2 cell after the earlier names |
| Fcdo.FirstRowNotSkipped | fcdo_loader.py:9-11 | no header row is skipped: if the first row has more than two cells, its index-2 cell is the first name, despite the comment at fcdo_loader.py:7 |

## Left out

- The Streamlit page (app.py:7, 14, 17, 32-55, 69-71) is left out: the slider, the editable table, the clear button, the data-frame display and the session state. The threshold is a plain integer parameter, and the `Names` column is a sequence of `Report.Cell` values.
- File reading is left out: `load_ofac`'s CSV read (app.py:8-12), `pyexcel_ods3.get_data` and the first-sheet pick (fcdo_loader.py:4-6), and all of `eu_loader.py`. These are pandas and spreadsheet-library calls whose code is not part of this model. The OFAC list and the FCDO sheet are given as sequences.
- The fuzzy scorer `fuzz.token_sort_ratio` is not modelled, because it is library code outside this model. It is an arbitrary total function into [0, 100], so no property of the edit-distance ratio (symmetry, token-order invariance, `score(a, a) == 100`) is claimed.
- Float rounding is left out. `int(round(score))` (app.py:30) uses banker's rounding on a float, and the scorer parameter is taken to return the already-rounded integer.
- Matching.GetTopMatches: the order among equal scores is not claimed to match the library's. The abstract selection leaves ties open, and the realisation puts the earlier choice first.
- Matching.GetTopMatches: `n` is a natural number. The application only ever passes the default 3 (`Matching.DefaultLimit`), so negative limits are not modelled.
- Normalizer.IsWordChar, Normalizer.StripNonWord and Normalizer.ToLower: classification and lowercasing are exact only up to U+00FF. Above it, every non-space character is treated as a word character that lowercases to itself. For example, Python removes U+2019 (right single quotation mark) but the model keeps it, and Python lowercases Greek, Cyrillic and other capitals that the model leaves alone.
- Fcdo.ColumnC: cells are text. `str(row[2])` on a number or date cell renders that value, which is not modelled.
- Patronymic variant expansion, cross-variant deduplication and multi-list orchestration appear in none of the modelled files, so they are not modelled. Skipping empty names does not appear in them either: app.py:59 drops only missing values, so an empty name is still scored.

## Findings

| source | as written | input that shows it | evidently intended | confidence | as-written member | corrected member |
|---|---|---|---|---|---|---|
| app.py:59-68 | The loop iterates over `input_df['Names'].dropna()`, so `result` gets no entry for a missing name. The table is then built from the full `Names` column together with that shorter list. | A `Names` column holding `"Jan Kowalski"` followed by a missing entry, such as a row the dynamic editor just added. `result` has one string but the column has two rows, and pandas rejects columns of different lengths. | One results string per row of `Names`, with an empty string for a missing entry. | medium; not executed | Report.RenderScreenAsWritten (shown by Report.AsWrittenCounterexample) | Report.RenderScreen |

=== FILE: fcdo.dfy ===
/** The row loop of fcdo_loader.py `load_fcdo_names`: from the first sheet of
    the spreadsheet, given as a sequence of rows of cells, take the third cell
    (column C, index 2) of every row that has one. Reading the file and picking
    the first sheet are not modelled; every cell is taken as its text, which is
    what `str(row[2])` yields for a text cell. */
module Fcdo {

  /** A row has a column C cell: `len(row) > 2`. */
  predicate HasColumnC(row: seq<string>)
  {
    |row| > 2
  }

  /** The positions of the rows that have a column C cell, in sheet order. */
  function RowsWithColumnC(sheet: seq<seq<string>>): (ix: seq<nat>)
    ensures forall k :: 0 <= k < |ix| ==> ix[k] < |sheet| && HasColumnC(sheet[ix[k]])
    ensures forall j, k :: 0 <= j < k < |ix| ==> ix[j] < ix[k]
    ensures forall i :: 0 <= i < |sheet| && HasColumnC(sheet[i]) ==> i in ix
  {
    if |sheet| == 0 then []
    else
      var prefix := sheet[..|sheet| - 1];
      var earlier := RowsWithColumnC(prefix);
      assert forall k :: 0 <= k < |earlier| ==> sheet[earlier[k]] == prefix[earlier[k]];
      assert forall i :: 0 <= i < |prefix| ==> sheet[i] == prefix[i];
      if HasColumnC(sheet[|sheet| - 1]) then earlier + [|sheet| - 1] else earlier
  }

  /** The names the loader returns: column C of every row that has one, in
      sheet order. */
  function ColumnC(sheet: seq<seq<string>>): (names: seq<string>)
    ensures |names| <= |sheet|
  {
    if |sheet| == 0 then []
    else
      var last := sheet[|sheet| - 1];
      var earlier := ColumnC(sheet[..|sheet| - 1]);
      if HasColumnC(last) then earlier + [last[2]] else earlier
  }

  /** The names are the column C cells of exactly the rows that have one, one
      name per such row, in sheet order. */
  lemma {:induction false} ColumnCAtRows(sheet: seq<seq<string>>)
    ensures |ColumnC(sheet)| == |RowsWithColumnC(sheet)|
    ensures forall k :: 0 <= k < |ColumnC(sheet)| ==> ColumnC(sheet)[k] == sheet[RowsWithColumnC(sheet)[k]][2]
  {
    if |sheet| > 0 {
      var prefix := sheet[..|sheet| - 1];
      ColumnCAtRows(prefix);
      var ix := RowsWithColumnC(prefix);
      var names := ColumnC(prefix);
      var last := sheet[|sheet| - 1];
      forall k | 0 <= k < |names| ensures names[k] == sheet[ix[k]][2] {
        assert sheet[ix[k]] == prefix[ix[k]];
      }
      if HasColumnC(last) {
        assert RowsWithColumnC(sheet) == ix + [|sheet| - 1];
        assert ColumnC(sheet) == names + [last[2]];
      } else {
        assert RowsWithColumnC(sheet) == ix;
        assert ColumnC(sheet) == names;
      }
    }
  }

  /** The loop of `load_fcdo_names`. */
  method LoadFcdoNames(sheet: seq<seq<string>>) returns (names: seq<string>)
    ensures names == ColumnC(sheet)
    ensures |names| == |RowsWithColumnC(sheet)|
    ensures forall k :: 0 <= k < |names| ==> names[k] == sheet[RowsWithColumnC(sheet)[k]][2]
  {
    names := [];
    for i := 0 to |sheet|
      invariant names == ColumnC(sheet[..i])
    {
      if |sheet[i]| > 2 {
        names := names + [sheet[i][2]];
      }
      assert sheet[..i + 1][..i] == sheet[..i];
    }
    assert sheet[..|sheet|] == sheet;
    ColumnCAtRows(sheet);
  }

  /** An empty sheet gives no names. */
  lemma EmptySheet()
    ensures ColumnC([]) == []
  {
  }

  /** A row without a column C cell is skipped and changes nothing. */
  lemma ShortRowSkipped(sheet: seq<seq<string>>, row: seq<string>)
    requires |row| <= 2
    ensures ColumnC(sheet + [row]) == ColumnC(sheet)
  {
    assert (sheet + [row])[..|sheet|] == sheet;
  }

  /** A row with a column C cell adds exactly that cell, after the names of
      the rows before it. */
  lemma LongRowAppended(sheet: seq<seq<string>>, row: seq<string>)
    requires |row| > 2
    ensures ColumnC(sheet + [row]) == ColumnC(sheet) + [row[2]]
  {
    assert (sheet + [row])[..|sheet|] == sheet;
  }

  /** No header row is skipped: when the first row has a column C cell, that
      cell is the first name returned. */
  lemma FirstRowNotSkipped(sheet: seq<seq<string>>)
    requires |sheet| > 0 && |sheet[0]| > 2
    ensures |ColumnC(sheet)| > 0 && ColumnC(sheet)[0] == sheet[0][2]
  {
    ColumnCAtRows(sheet);
    var ix := RowsWithColumnC(sheet);
    assert 0 in ix;
    var p :| 0 <= p < |ix| && ix[p] == 0;
  }
}

=== FILE: matching.dfy ===
/** The matching wrapper (app.py `get_top_matches`): normalise the query and
    every choice, select the `n` best-scoring choices, and report each one as
    the ORIGINAL choice string with its integer score.

    The similarity scorer is the library's token-sort ratio, which is not part
    of this model: it is a parameter, any total function into [0, 100]. The
    library's top-`n` extraction is specified abstractly by `IsTopSelection`
    and realised by a stable ranking (higher score first, earlier choice first
    among equal scores). */
module Matching {
  import opened Normalizer

  /** A similarity score as the scorer reports it, already rounded. */
  type Percent = x: int | 0 <= x <= 100

  /** One reported match: a choice as the caller supplied it, and its score. */
  datatype Match = Match(name: string, score: int)

  /** The number of matches asked for when the caller gives none. */
  const DefaultLimit: nat := 3

  function Min(a: nat, b: nat): nat
  {
    if a <= b then a else b
  }

  // ---------------------------------------------------------------------------
  // Abstract top-n selection

  /** `sel` is a valid answer to "the `n` highest-scoring positions of
      `scores`": as many positions as asked for (or all there are), each valid
      and none repeated, listed from the highest score down, and no position
      left out scores higher than one that was chosen. */
  predicate IsTopSelection(scores: seq<int>, n: nat, sel: seq<nat>)
  {
    && |sel| == Min(n, |scores|)
    && (forall k :: 0 <= k < |sel| ==> sel[k] < |scores|)
    && (forall j, k :: 0 <= j < k < |sel| ==> sel[j] != sel[k])
    && (forall j, k :: 0 <= j < k < |sel| ==> scores[sel[j]] >= scores[sel[k]])
    && (forall i, k :: 0 <= i < |scores| && i !in sel && 0 <= k < |sel| ==> scores[i] <= scores[sel[k]])
  }

  // ---------------------------------------------------------------------------
  // A stable ranking that realises it

  /** Position `i` ranks ahead of position `j`: a higher score, or the same
      score and an earlier position. */
  predicate Before(scores: seq<int>, i: nat, j: nat)
  {
    i < |scores| && j < |scores| && (scores[i] > scores[j] || (scores[i] == scores[j] && i < j))
  }

  /** `s` lists positions of `scores` in ranking order. */
  predicate Ranked(scores: seq<int>, s: seq<nat>)
  {
    && (forall k :: 0 <= k < |s| ==> s[k] < |scores|)
    && (forall j, k :: 0 <= j < k < |s| ==> Before(scores, s[j], s[k]))
  }

  /** A position that ranks ahead of every position of a ranking can lead it. */
  lemma RankedCons(scores: seq<int>, x: nat, s: seq<nat>)
    requires x < |scores| && Ranked(scores, s)
    requires forall k :: 0 <= k < |s| ==> Before(scores, x, s[k])
    ensures Ranked(scores, [x] + s)
  {
    var r := [x] + s;
    forall j, k | 0 <= j < k < |r| ensures Before(scores, r[j], r[k]) {
      if j > 0 {
        assert r[j] == s[j - 1] && r[k] == s[k - 1];
      } else {
        assert r[k] == s[k - 1];
      }
    }
  }

  /** Insert position `i`, later than every position already ranked, after
      all positions that score at least as high. */
  function Insert(scores: seq<int>, i: nat, s: seq<nat>): (r: seq<nat>)
    requires i < |scores|
    requires Ranked(scores, s)
    requires forall k :: 0 <= k < |s| ==> s[k] < i
    ensures Ranked(scores, r)
    ensures |r| == |s| + 1
    ensures forall x: nat :: x in r <==> x == i || x in s
  {
    if |s| == 0 then [i]
    else if scores[s[0]] >= scores[i] then
      var rest := Insert(scores, i, s[1..]);
      assert forall k :: 0 <= k < |rest| ==> Before(scores, s[0], rest[k]) by {
        forall k | 0 <= k < |rest|
          ensures Before(scores, s[0], rest[k])
        {
          if rest[k] != i {
            assert rest[k] in s[1..];
            var p :| 0 <= p < |s[1..]| && s[1..][p] == rest[k];
            assert s[p + 1] == rest[k];
          }
        }
      }
      RankedCons(scores, s[0], rest);
      assert s == [s[0]] + s[1..];
      [s[0]] + rest
    else
      assert forall k :: 0 <= k < |s| ==> Before(scores, i, s[k]) by {
        forall k | 0 <= k < |s| ensures Before(scores, i, s[k]) {
          if k > 0 {
            assert Before(scores, s[0], s[k]);
          }
        }
      }
      RankedCons(scores, i, s);
      [i] + s
  }

  /** The positions `0 .. m - 1` in ranking order. */
  function Ranking(scores: seq<int>, m: nat): (r: seq<nat>)
    requires m <= |scores|
    ensures Ranked(scores, r)
    ensures |r| == m
    ensures forall x: nat :: x in r <==> x < m
  {
    if m == 0 then []
    else
      var s := Ranking(scores, m - 1);
      assert forall k :: 0 <= k < |s| ==> s[k] < m - 1 by {
        forall k | 0 <= k < |s| ensures s[k] < m - 1 {
          assert s[k] in s;
        }
      }
      Insert(scores, m - 1, s)
  }

  /** The first `n` positions of the full ranking. */
  function TopIndices(scores: seq<int>, n: nat): (sel: seq<nat>)
    ensures IsTopSelection(scores, n, sel)
  {
    var all := Ranking(scores, |scores|);
    var sel := all[..Min(n, |scores|)];
    assert forall i, k :: 0 <= i < |scores| && i !in sel && 0 <= k < |sel| ==> scores[i] <= scores[sel[k]] by {
      forall i, k | 0 <= i < |scores| && i !in sel && 0 <= k < |sel|
        ensures scores[i] <= scores[sel[k]]
      {
        assert i in all;
        var p :| 0 <= p < |all| && all[p] == i;
        assert p >= |sel|;
        assert Before(scores, all[k], all[p]);
      }
    }
    sel
  }

  // ---------------------------------------------------------------------------
  // The wrapper

  /** `process.extract`'s scores: the normalised query against every
      normalised choice, in choice order. */
  function ChoiceScores(query: string, choices: seq<string>, score: (string, string) -> Percent): seq<Percent>
  {
    seq<Percent>(|choices|, i requires 0 <= i < |choices| => score(Normalize(query), Normalize(choices[i])))
  }

  /** The positions of the choices `process.extract` reports: a valid top-`n`
      selection by score of the normalised query against each normalised
      choice. */
  function TopPositions(query: string, choices: seq<string>, score: (string, string) -> Percent, n: nat): (sel: seq<nat>)
    ensures IsTopSelection(ChoiceScores(query, choices, score), n, sel)
    ensures forall k :: 0 <= k < |sel| ==> sel[k] < |choices|
  {
    TopIndices(ChoiceScores(query, choices, score), n)
  }

  /** `get_top_matches` in app.py: at most `n` matches, none if there are
      no choices; the `k`-th match is the ORIGINAL choice at the `k`-th
      selected position, with the score of the normalised query against that
      normalised choice, a value in [0, 100]; scores never increase along the
      result. */
  function GetTopMatches(query: string, choices: seq<string>, score: (string, string) -> Percent, n: nat): (r: seq<Match>)
    ensures |r| == Min(n, |choices|)
    ensures forall k :: 0 <= k < |r| ==>
      var i := TopPositions(query, choices, score, n)[k];
      r[k] == Match(choices[i], score(Normalize(query), Normalize(choices[i])))
    ensures forall k :: 0 <= k < |r| ==> 0 <= r[k].score <= 100
    ensures forall j, k :: 0 <= j < k < |r| ==> r[j].score >= r[k].score
  {
    var scores := ChoiceScores(query, choices, score);
    var sel := TopPositions(query, choices, score, n);
    seq(|sel|, k requires 0 <= k < |sel| => Match(choices[sel[k]], scores[sel[k]]))
  }

  /** Every reported match is one of the original choices, with its own
      score. */
  lemma TopMatchesAreChoices(query: string, choices: seq<string>, score: (string, string) -> Percent, n: nat, k: nat)
    requires k < |GetTopMatches(query, choices, score, n)|
    ensures exists i :: (0 <= i < |choices| &&
      GetTopMatches(query, choices, score, n)[k] == Match(choices[i], score(Normalize(query), Normalize(choices[i]))))
  {
    var i := TopPositions(query, choices, score, n)[k];
    assert GetTopMatches(query, choices, score, n)[k] == Match(choices[i], score(Normalize(query), Normalize(choices[i])));
  }

  /** No choice left out of the result scores higher than any choice in it. */
  lemma TopMatchesAreBest(query: string, choices: seq<string>, score: (string, string) -> Percent, n: nat, i: nat, k: nat)
    requires i < |choices| && i !in TopPositions(query, choices, score, n)
    requires k < |GetTopMatches(query, choices, score, n)|
    ensures score(Normalize(query), Normalize(choices[i])) <= GetTopMatches(query, choices, score, n)[k].score
  {
    var scores := ChoiceScores(query, choices, score);
    var sel := TopPositions(query, choices, score, n);
    assert scores[i] <= scores[sel[k]];
  }
}

=== FILE: normalize.dfy ===
/** Name canonicalisation (app.py `normalize`): drop every character that is
    neither a word character nor whitespace, lowercase the rest, split on runs
    of whitespace and rejoin the tokens with single spaces.

    Character classes follow Python's `str` semantics: whitespace is exactly the
    set `str.isspace()` and the regex class `\s` accept; word characters and
    lowercasing are exact for code points up to U+00FF, and every non-space
    character above U+00FF is taken to be a word character that lowercases to
    itself. */
module Normalizer {
  import opened Strings

  /** Whitespace: the characters Python's `str.isspace()` accepts. */
  predicate IsSpace(c: char)
  {
    var k := c as int;
    k == 0x20 || 0x09 <= k <= 0x0D || 0x1C <= k <= 0x1F || k == 0x85 || k == 0xA0
    || k == 0x1680 || 0x2000 <= k <= 0x200A || k == 0x2028 || k == 0x2029
    || k == 0x202F || k == 0x205F || k == 0x3000
  }

  /** Word characters, the regex class `\w`: letters, digits and `_`. */
  predicate IsWordChar(c: char)
  {
    var k := c as int;
    ('a' <= c <= 'z') || ('A' <= c <= 'Z') || ('0' <= c <= '9') || c == '_'
    || k == 0xAA || k == 0xB2 || k == 0xB3 || k == 0xB5 || k == 0xB9 || k == 0xBA
    || 0xBC <= k <= 0xBE
    || (0xC0 <= k <= 0xFF && k != 0xD7 && k != 0xF7)
    || (k > 0xFF && !IsSpace(c))
  }

  predicate IsUpper(c: char)
  {
    ('A' <= c <= 'Z') || (0xC0 <= c as int <= 0xDE && c as int != 0xD7)
  }

  /** `str.upper()` on one character, for the letters `IsUpper` covers: the
      small letters `a`-`z` and U+00E0-U+00FE (but U+00F7, the division sign)
      sit 32 code points above their capitals. */
  function ToUpper(c: char): char
  {
    var k := c as int;
    if ('a' <= c <= 'z') || (0xE0 <= k <= 0xFE && k != 0xF7) then (k - 32) as char else c
  }

  /** `str.lower()` on one character. */
  function ToLower(c: char): (l: char)
    ensures !IsUpper(l)
    ensures IsSpace(l) <==> IsSpace(c)
    ensures IsWordChar(l) <==> IsWordChar(c)
    ensures !IsUpper(c) ==> l == c
    ensures IsUpper(c) ==> l != c && ToUpper(l) == c
  {
    if IsUpper(c) then (c as int + 32) as char else c
  }

  /** `s.lower()`: nothing upper-case remains, and every character keeps its
      place and its class (whitespace, word character, neither). */
  function LowerAll(s: string): (r: string)
    ensures |r| == |s|
    ensures forall i :: 0 <= i < |s| ==>
      !IsUpper(r[i]) && (IsSpace(r[i]) <==> IsSpace(s[i])) && (IsWordChar(r[i]) <==> IsWordChar(s[i]))
    ensures forall i :: 0 <= i < |s| ==> if IsUpper(s[i]) then ToUpper(r[i]) == s[i] else r[i] == s[i]
  {
    seq(|s|, i requires 0 <= i < |s| => ToLower(s[i]))
  }

  /** `re.sub(r'[^\w\s]', '', s)`: keep word characters and whitespace. */
  function StripNonWord(s: string): (r: string)
    ensures forall i :: 0 <= i < |r| ==> IsWordChar(r[i]) || IsSpace(r[i])
    ensures IsSubsequence(r, s)
  {
    if |s| == 0 then []
    else
      var rest := StripNonWord(s[1..]);
      assert s == [s[0]] + s[1..];
      SubsequenceCons(s[0], rest, s[1..]);
      if IsWordChar(s[0]) || IsSpace(s[0]) then [s[0]] + rest else rest
  }

  /** Stripping keeps every word character and every whitespace character,
      each as often as it occurs, and nothing else. */
  lemma {:induction false} StripNonWordCounts(s: string)
    ensures forall c :: multiset(StripNonWord(s))[c] == if IsWordChar(c) || IsSpace(c) then multiset(s)[c] else 0
  {
    if |s| > 0 {
      StripNonWordCounts(s[1..]);
      var rest := StripNonWord(s[1..]);
      assert s == [s[0]] + s[1..];
      assert multiset(s) == multiset{s[0]} + multiset(s[1..]);
      if IsWordChar(s[0]) || IsSpace(s[0]) {
        assert multiset([s[0]] + rest) == multiset{s[0]} + multiset(rest);
      }
    }
  }

  /** Length of the run of non-space characters that starts `s`. */
  function TokenLength(s: string): (k: nat)
    ensures k <= |s|
    ensures forall j :: 0 <= j < k ==> !IsSpace(s[j])
    ensures k < |s| ==> IsSpace(s[k])
  {
    if |s| == 0 || IsSpace(s[0]) then 0 else 1 + TokenLength(s[1..])
  }

  /** `TokenLength` is the only length whose prefix is space-free and which
      stops at whitespace or at the end. */
  lemma {:induction false} TokenLengthUnique(s: string, k: nat)
    requires k <= |s|
    requires forall j :: 0 <= j < k ==> !IsSpace(s[j])
    requires k < |s| ==> IsSpace(s[k])
    ensures TokenLength(s) == k
  {
    if k > 0 {
      assert forall j :: 0 <= j < k - 1 ==> s[1..][j] == s[j + 1];
      TokenLengthUnique(s[1..], k - 1);
    }
  }

  /** A token: non-empty and free of whitespace. */
  predicate IsToken(t: string)
  {
    |t| > 0 && forall j :: 0 <= j < |t| ==> !IsSpace(t[j])
  }

  predicate AllTokens(toks: seq<string>)
  {
    forall k :: 0 <= k < |toks| ==> IsToken(toks[k])
  }

  /** `s.split()` with no argument: the maximal runs of non-space characters,
      in order. */
  function Split(s: string): (toks: seq<string>)
    ensures AllTokens(toks)
    ensures forall k, c :: 0 <= k < |toks| && c in toks[k] ==> c in s
    decreases |s|
  {
    if |s| == 0 then []
    else if IsSpace(s[0]) then
      assert forall c :: c in s[1..] ==> c in s;
      Split(s[1..])
    else
      var k := TokenLength(s);
      assert forall c :: c in s[k..] ==> c in s;
      assert forall c :: c in s[..k] ==> c in s;
      [s[..k]] + Split(s[k..])
  }

  /** The text with every whitespace character removed. */
  function NonSpace(s: string): string
  {
    if |s| == 0 then ""
    else (if IsSpace(s[0]) then "" else [s[0]]) + NonSpace(s[1..])
  }

  /** The word characters of the text, in order. */
  function WordChars(s: string): string
  {
    if |s| == 0 then ""
    else (if IsWordChar(s[0]) then [s[0]] else "") + WordChars(s[1..])
  }

  /** `normalize` in app.py. Apart from the spaces between tokens, the
      result is exactly the input's word characters, lowercased, in their
      original order: nothing else survives and nothing of them is lost. */
  function Normalize(text: string): (r: string)
    ensures NonSpace(r) == LowerAll(WordChars(text))
  {
    var stripped := StripNonWord(text);
    var toks := Split(LowerAll(stripped));
    JoinNonSpace(toks);
    SplitConcat(LowerAll(stripped));
    LowerNonSpace(stripped);
    StripNonSpace(text);
    Join(" ", toks)
  }

  // ---------------------------------------------------------------------------
  // Non-space content

  /** `split()` loses no character but whitespace: run together, the tokens
      are the text's non-space characters, in their original order. */
  lemma {:induction false} SplitConcat(s: string)
    ensures Concat(Split(s)) == NonSpace(s)
    decreases |s|
  {
    if |s| > 0 {
      if IsSpace(s[0]) {
        SplitConcat(s[1..]);
      } else {
        var k := TokenLength(s);
        var rest := Split(s[k..]);
        SplitConcat(s[k..]);
        assert Split(s) == [s[..k]] + rest;
        assert ([s[..k]] + rest)[1..] == rest;
        assert s == s[..k] + s[k..];
        NonSpaceAppend(s[..k], s[k..]);
        NonSpaceToken(s[..k]);
      }
    }
  }

  lemma {:induction false} NonSpaceAppend(a: string, b: string)
    ensures NonSpace(a + b) == NonSpace(a) + NonSpace(b)
  {
    if |a| > 0 {
      assert (a + b)[1..] == a[1..] + b;
      NonSpaceAppend(a[1..], b);
    } else {
      assert a + b == b;
    }
  }

  lemma {:induction false} NonSpaceToken(t: string)
    requires forall j :: 0 <= j < |t| ==> !IsSpace(t[j])
    ensures NonSpace(t) == t
  {
    if |t| > 0 {
      NonSpaceToken(t[1..]);
      assert t == [t[0]] + t[1..];
    }
  }

  /** Joining tokens with single spaces adds nothing but whitespace. */
  lemma {:induction false} JoinNonSpace(toks: seq<string>)
    requires AllTokens(toks)
    ensures NonSpace(Join(" ", toks)) == Concat(toks)
  {
    if |toks| == 1 {
      NonSpaceToken(toks[0]);
      assert Concat(toks) == toks[0] + Concat([]);
      assert toks[0] + "" == toks[0];
    } else if |toks| > 1 {
      var rest := toks[1..];
      JoinNonSpace(rest);
      NonSpaceToken(toks[0]);
      NonSpaceAppend(toks[0], " ");
      NonSpaceAppend(toks[0] + " ", Join(" ", rest));
      assert NonSpace(" ") == "";
      assert NonSpace(toks[0] + " ") == toks[0];
    }
  }

  lemma LowerAllCons(c: char, t: string)
    ensures LowerAll([c] + t) == [ToLower(c)] + LowerAll(t)
  {
    var l := LowerAll([c] + t);
    assert forall i :: 0 < i < |l| ==> l[i] == LowerAll(t)[i - 1];
  }

  /** Lowercasing commutes with dropping whitespace. */
  lemma {:induction false} LowerNonSpace(s: string)
    ensures NonSpace(LowerAll(s)) == LowerAll(NonSpace(s))
  {
    if |s| > 0 {
      var c := s[0];
      var t := s[1..];
      LowerNonSpace(t);
      assert s == [c] + t;
      LowerAllCons(c, t);
      var l := [ToLower(c)] + LowerAll(t);
      assert l[1..] == LowerAll(t);
      assert NonSpace(l) == (if IsSpace(c) then "" else [ToLower(c)]) + NonSpace(LowerAll(t));
      if !IsSpace(c) {
        LowerAllCons(c, NonSpace(t));
      }
    }
  }

  /** After stripping, the non-space characters are the word characters. */
  lemma {:induction false} StripNonSpace(s: string)
    ensures NonSpace(StripNonWord(s)) == WordChars(s)
  {
    if |s| > 0 {
      StripNonSpace(s[1..]);
      var rest := StripNonWord(s[1..]);
      if IsWordChar(s[0]) || IsSpace(s[0]) {
        assert ([s[0]] + rest)[1..] == rest;
      }
    }
  }

  /** No leading or trailing whitespace, no two whitespace characters in a row,
      and the only whitespace character is the ASCII space. */
  predicate SingleSpaced(s: string)
  {
    forall i :: 0 <= i < |s| && IsSpace(s[i]) ==>
      s[i] == ' ' && 0 < i && i + 1 < |s| && !IsSpace(s[i + 1])
  }

  /** The shape of every `normalize` result. */
  predicate IsNormalForm(s: string)
  {
    && SingleSpaced(s)
    && forall i :: 0 <= i < |s| ==> (IsWordChar(s[i]) || s[i] == ' ') && !IsUpper(s[i])
  }

  /** Empty, or whitespace only. */
  predicate IsBlank(s: string)
  {
    forall i :: 0 <= i < |s| ==> IsSpace(s[i])
  }

  predicate HasNoWordChar(s: string)
  {
    forall i :: 0 <= i < |s| ==> !IsWordChar(s[i])
  }

  // ---------------------------------------------------------------------------
  // Split and Join

  /** A token followed by whitespace (or nothing) splits off as one token. */
  lemma SplitToken(t: string, x: string)
    requires IsToken(t)
    requires |x| == 0 || IsSpace(x[0])
    ensures Split(t + x) == [t] + Split(x)
  {
    var s := t + x;
    assert forall j :: 0 <= j < |t| ==> s[j] == t[j];
    assert |t| < |s| ==> s[|t|] == x[0];
    TokenLengthUnique(s, |t|);
    var k := |t|;
    assert s[..k] == t;
    assert s[k..] == x;
  }

  /** Whitespace in front, however long and of whatever kind, is skipped. */
  lemma {:induction false} SplitSkipsBlank(w: string, x: string)
    requires IsBlank(w)
    ensures Split(w + x) == Split(x)
    decreases |w|
  {
    if |w| == 0 {
      assert w + x == x;
    } else {
      assert (w + x)[0] == w[0];
      assert (w + x)[1..] == w[1..] + x;
      SplitSkipsBlank(w[1..], x);
    }
  }

  /** The tokens with `gaps[j]` in front of token `j` and the last gap after
      them all. */
  function Interleave(toks: seq<string>, gaps: seq<string>): string
    requires |gaps| == |toks| + 1
    decreases |toks|
  {
    if |toks| == 0 then gaps[0] else gaps[0] + toks[0] + Interleave(toks[1..], gaps[1..])
  }

  /** Tokens separated by whitespace runs of any length and kind, with any
      whitespace (or none) at either end, split back into the tokens. */
  lemma {:induction false} SplitInterleave(toks: seq<string>, gaps: seq<string>)
    requires |gaps| == |toks| + 1
    requires AllTokens(toks)
    requires forall j :: 0 <= j < |gaps| ==> IsBlank(gaps[j])
    requires forall j :: 0 < j < |toks| ==> |gaps[j]| > 0
    ensures Split(Interleave(toks, gaps)) == toks
    decreases |toks|
  {
    if |toks| == 0 {
      SplitSkipsBlank(gaps[0], "");
      assert gaps[0] + "" == gaps[0];
    } else {
      var rest := Interleave(toks[1..], gaps[1..]);
      assert gaps[0] + toks[0] + rest == gaps[0] + (toks[0] + rest);
      SplitSkipsBlank(gaps[0], toks[0] + rest);
      if |toks| > 1 {
        assert rest[0] == gaps[1][0];
      }
      SplitToken(toks[0], rest);
      SplitInterleave(toks[1..], gaps[1..]);
      assert toks == [toks[0]] + toks[1..];
    }
  }

  /** Splitting single-space-joined tokens gives the tokens back. */
  lemma {:induction false} SplitJoin(toks: seq<string>)
    requires AllTokens(toks)
    ensures Split(Join(" ", toks)) == toks
  {
    if |toks| == 0 {
    } else if |toks| == 1 {
      SplitToken(toks[0], "");
      assert toks[0] + "" == toks[0];
    } else {
      var rest := Join(" ", toks[1..]);
      SplitToken(toks[0], " " + rest);
      assert toks[0] + " " + rest == toks[0] + (" " + rest);
      assert (" " + rest)[1..] == rest;
      SplitJoin(toks[1..]);
      assert toks == [toks[0]] + toks[1..];
    }
  }

  /** Joining tokens with single spaces gives a single-spaced string. */
  lemma {:induction false} JoinSingleSpaced(toks: seq<string>)
    requires AllTokens(toks)
    ensures SingleSpaced(Join(" ", toks))
    ensures |toks| > 0 ==> |Join(" ", toks)| > 0 && !IsSpace(Join(" ", toks)[0])
  {
    if |toks| == 1 {
    } else if |toks| > 1 {
      var t := toks[0];
      var rest := Join(" ", toks[1..]);
      JoinSingleSpaced(toks[1..]);
      var s := t + " " + rest;
      assert s == Join(" ", toks);
      forall i | 0 <= i < |s| && IsSpace(s[i])
        ensures s[i] == ' ' && 0 < i && i + 1 < |s| && !IsSpace(s[i + 1])
      {
        if i < |t| {
        } else if i == |t| {
          assert s[i + 1] == rest[0];
        } else {
          assert s[i] == rest[i - |t| - 1];
          if i + 1 < |s| {
            assert s[i + 1] == rest[i - |t|];
          }
        }
      }
    }
  }

  /** Every character of a joined string is the separator's or a part's. */
  lemma {:induction false} JoinChars(toks: seq<string>)
    ensures forall c :: c in Join(" ", toks) ==> c == ' ' || exists k :: 0 <= k < |toks| && c in toks[k]
  {
    if |toks| > 1 {
      JoinChars(toks[1..]);
      forall c | c in Join(" ", toks)
        ensures c == ' ' || exists k :: 0 <= k < |toks| && c in toks[k]
      {
        if c in Join(" ", toks[1..]) && c != ' ' {
          var k :| 0 <= k < |toks[1..]| && c in toks[1..][k];
          assert c in toks[k + 1];
        }
      }
    }
  }

  /** What follows the first space of a single-spaced string is single-spaced
      and starts with a non-space character. */
  lemma SingleSpacedTail(s: string, k: nat)
    requires SingleSpaced(s)
    requires k < |s| && IsSpace(s[k])
    ensures |s[k + 1..]| > 0 && !IsSpace(s[k + 1..][0])
    ensures SingleSpaced(s[k + 1..])
  {
    var tail := s[k + 1..];
    forall i | 0 <= i < |tail| && IsSpace(tail[i])
      ensures tail[i] == ' ' && 0 < i && i + 1 < |tail| && !IsSpace(tail[i + 1])
    {
      assert tail[i] == s[k + 1 + i];
      if i + 1 < |tail| {
        assert tail[i + 1] == s[k + 2 + i];
      }
    }
  }

  /** A single-spaced string is the single-space join of its own tokens. */
  lemma {:induction false} JoinSplitSingleSpaced(s: string)
    requires SingleSpaced(s)
    ensures Join(" ", Split(s)) == s
    decreases |s|
  {
    if |s| > 0 {
      var k := TokenLength(s);
      var head := s[..k];
      if k == |s| {
        assert head == s;
        assert s[k..] == [];
        assert Split(s) == [head];
      } else {
        var tail := s[k + 1..];
        SingleSpacedTail(s, k);
        assert s[k..][1..] == tail;
        var rest := Split(tail);
        assert Split(s) == [head] + rest;
        JoinSplitSingleSpaced(tail);
        assert |rest| > 0;
        assert ([head] + rest)[1..] == rest;
        assert Join(" ", [head] + rest) == head + " " + tail;
        assert s == head + " " + tail;
      }
    }
  }

  // ---------------------------------------------------------------------------
  // Lowercasing commutes with splitting

  function LowerTokens(toks: seq<string>): (r: seq<string>)
  {
    seq(|toks|, k requires 0 <= k < |toks| => LowerAll(toks[k]))
  }

  lemma TokenLengthLower(s: string)
    ensures TokenLength(LowerAll(s)) == TokenLength(s)
  {
    TokenLengthUnique(LowerAll(s), TokenLength(s));
  }

  lemma LowerAllSlices(s: string, k: nat)
    requires k <= |s|
    ensures LowerAll(s)[..k] == LowerAll(s[..k])
    ensures LowerAll(s)[k..] == LowerAll(s[k..])
  {
  }

  lemma LowerTokensCons(t: string, toks: seq<string>)
    ensures LowerTokens([t] + toks) == [LowerAll(t)] + LowerTokens(toks)
  {
    var r := LowerTokens([t] + toks);
    assert forall i :: 0 < i < |r| ==> r[i] == LowerTokens(toks)[i - 1];
  }

  /** Lowercasing never creates or removes whitespace, so the tokens of the
      lowercased text are the lowercased tokens. */
  lemma {:induction false} SplitLower(s: string)
    ensures Split(LowerAll(s)) == LowerTokens(Split(s))
    decreases |s|
  {
    if |s| > 0 {
      var l := LowerAll(s);
      if IsSpace(s[0]) {
        LowerAllSlices(s, 1);
        SplitLower(s[1..]);
      } else {
        var k := TokenLength(s);
        TokenLengthLower(s);
        LowerAllSlices(s, k);
        SplitLower(s[k..]);
        assert Split(s) == [s[..k]] + Split(s[k..]);
        assert Split(l) == [l[..k]] + Split(l[k..]);
        LowerTokensCons(s[..k], Split(s[k..]));
      }
    }
  }

  // ---------------------------------------------------------------------------
  // Properties of normalize

  /** Every result of `normalize` is in normal form: single spaces between
      tokens, no leading or trailing space, only word characters and spaces,
      nothing upper-case. */
  lemma NormalizeIsNormalForm(text: string)
    ensures IsNormalForm(Normalize(text))
  {
    var lowered := LowerAll(StripNonWord(text));
    var toks := Split(lowered);
    var r := Normalize(text);
    JoinSingleSpaced(toks);
    JoinChars(toks);
    forall i | 0 <= i < |r|
      ensures (IsWordChar(r[i]) || r[i] == ' ') && !IsUpper(r[i])
    {
      var c := r[i];
      assert c in Join(" ", toks);
      if c != ' ' {
        var k :| 0 <= k < |toks| && c in toks[k];
        assert !IsSpace(c);
        assert c in lowered;
      }
    }
  }

  /** Normal-form strings are exactly the fixed points of `normalize`. */
  lemma NormalizeFixedPoints(s: string)
    ensures Normalize(s) == s <==> IsNormalForm(s)
  {
    if IsNormalForm(s) {
      var stripped := StripNonWord(s);
      StripKeepsClean(s);
      assert LowerAll(s) == s;
      JoinSplitSingleSpaced(s);
    } else {
      NormalizeIsNormalForm(s);
    }
  }

  lemma {:induction false} StripKeepsClean(s: string)
    requires forall i :: 0 <= i < |s| ==> IsWordChar(s[i]) || IsSpace(s[i])
    ensures StripNonWord(s) == s
  {
    if |s| > 0 {
      StripKeepsClean(s[1..]);
      assert s == [s[0]] + s[1..];
    }
  }

  /** `normalize` is idempotent. */
  lemma NormalizeIdempotent(text: string)
    ensures Normalize(Normalize(text)) == Normalize(text)
  {
    NormalizeIsNormalForm(text);
    NormalizeFixedPoints(Normalize(text));
  }

  /** The tokens of `normalize(text)` are the lowercased whitespace-separated
      tokens of the punctuation-stripped text, in their original order. */
  lemma NormalizeTokens(text: string)
    ensures Split(Normalize(text)) == LowerTokens(Split(StripNonWord(text)))
  {
    var stripped := StripNonWord(text);
    SplitJoin(Split(LowerAll(stripped)));
    SplitLower(stripped);
  }

  lemma {:induction false} SplitEmpty(s: string)
    ensures Split(s) == [] <==> IsBlank(s)
    decreases |s|
  {
    if |s| > 0 {
      if IsSpace(s[0]) {
        SplitEmpty(s[1..]);
        if IsBlank(s[1..]) {
          forall i | 0 <= i < |s| ensures IsSpace(s[i]) {
            if i > 0 { assert s[i] == s[1..][i - 1]; }
          }
        }
      }
    }
  }

  /** Stripping leaves only whitespace exactly when the text had no word
      character. */
  lemma StripNoWord(s: string)
    ensures IsBlank(StripNonWord(s)) <==> HasNoWordChar(s)
  {
    var r := StripNonWord(s);
    StripNonWordCounts(s);
    if !HasNoWordChar(s) {
      var i :| 0 <= i < |s| && IsWordChar(s[i]);
      var c := s[i];
      assert multiset(s)[c] > 0;
      assert c in r;
      var j :| 0 <= j < |r| && r[j] == c;
      assert !IsSpace(r[j]);
      assert !IsBlank(r);
    }
    if !IsBlank(r) {
      var j :| 0 <= j < |r| && !IsSpace(r[j]);
      var c := r[j];
      assert multiset(r)[c] > 0;
      assert c in s;
      var i :| 0 <= i < |s| && s[i] == c;
      assert IsWordChar(s[i]);
      assert !HasNoWordChar(s);
    }
  }

  /** `normalize` yields the empty string exactly when the text holds no word
      character; in particular for empty and whitespace-only input. */
  lemma NormalizeEmpty(text: string)
    ensures Normalize(text) == "" <==> HasNoWordChar(text)
  {
    var stripped := StripNonWord(text);
    var lowered := LowerAll(stripped);
    var toks := Split(lowered);
    assert Normalize(text) == Join(" ", toks);
    JoinSingleSpaced(toks);
    assert Normalize(text) == "" <==> toks == [];
    SplitEmpty(lowered);
    assert IsBlank(lowered) <==> IsBlank(stripped) by {
      assert forall i :: 0 <= i < |lowered| ==> lowered[i] == ToLower(stripped[i]);
    }
    StripNoWord(text);
  }

}

=== FILE: report.dfy ===
/** The results loop of app.py (lines 57-68): for every entered name, take the
    top matches against the OFAC list, keep those at or above the threshold,
    and render them as one display string `"name (score), name (score)"`. */
module Report {
  import opened Strings
  import opened Normalizer
  import opened Matching

  // ---------------------------------------------------------------------------
  // Threshold filter

  /** `[m for m in matches if m[1] >= threshold]`: the matches that reach the
      threshold, every one of them, in their original order. */
  function FilterByThreshold(matches: seq<Match>, threshold: int): (r: seq<Match>)
    ensures forall k :: 0 <= k < |r| ==> r[k].score >= threshold
    ensures IsSubsequence(r, matches)
    ensures |r| <= |matches|
  {
    if |matches| == 0 then []
    else
      var rest := FilterByThreshold(matches[1..], threshold);
      SubsequenceCons(matches[0], rest, matches[1..]);
      assert matches == [matches[0]] + matches[1..];
      if matches[0].score >= threshold then [matches[0]] + rest else rest
  }

  /** The filter keeps every match that reaches the threshold, as often as it
      occurs, and nothing else. */
  lemma {:induction false} FilterCount(matches: seq<Match>, threshold: int, m: Match)
    ensures multiset(FilterByThreshold(matches, threshold))[m] ==
            if m.score >= threshold then multiset(matches)[m] else 0
  {
    if |matches| > 0 {
      var head := matches[0];
      var tail := matches[1..];
      var kept := if head.score >= threshold then [head] else [];
      FilterCount(tail, threshold, m);
      FilterStep(matches, threshold);
      assert matches == [head] + tail;
      CountAppend([head], tail, m);
      CountAppend(kept, FilterByThreshold(tail, threshold), m);
      assert multiset([head])[m] == if head == m then 1 else 0;
      assert multiset(kept)[m] == if head == m && head.score >= threshold then 1 else 0;
    }
  }

  /** How often `m` occurs in a concatenation. */
  lemma CountAppend(a: seq<Match>, b: seq<Match>, m: Match)
    ensures multiset(a + b)[m] == multiset(a)[m] + multiset(b)[m]
  {
  }

  /** One step of the filter: the first match is kept or dropped, then the
      rest is filtered. */
  lemma FilterStep(matches: seq<Match>, threshold: int)
    requires |matches| > 0
    ensures FilterByThreshold(matches, threshold) ==
            (if matches[0].score >= threshold then [matches[0]] else []) + FilterByThreshold(matches[1..], threshold)
  {
  }

  /** `FilterCount` for every match at once. */
  lemma FilterCounts(matches: seq<Match>, threshold: int)
    ensures forall m :: (multiset(FilterByThreshold(matches, threshold))[m] ==
                         if m.score >= threshold then multiset(matches)[m] else 0)
  {
    forall m {
      FilterCount(matches, threshold, m);
    }
  }

  /** Nothing survives the filter exactly when no match reaches the
      threshold. */
  lemma FilterEmpty(matches: seq<Match>, threshold: int)
    ensures FilterByThreshold(matches, threshold) == [] <==>
            forall k :: 0 <= k < |matches| ==> matches[k].score < threshold
  {
    var filtered := FilterByThreshold(matches, threshold);
    FilterCounts(matches, threshold);
    if k :| 0 <= k < |matches| && matches[k].score >= threshold {
      assert multiset(matches)[matches[k]] > 0;
      assert multiset(filtered)[matches[k]] > 0;
    }
    if |filtered| > 0 {
      assert multiset(filtered)[filtered[0]] > 0;
      assert filtered[0] in matches;
    }
  }

  /** Filtering at a higher threshold is filtering again what a lower one
      kept. */
  lemma {:induction false} FilterTwice(matches: seq<Match>, low: int, high: int)
    requires low <= high
    ensures FilterByThreshold(FilterByThreshold(matches, low), high) == FilterByThreshold(matches, high)
  {
    if |matches| > 0 {
      FilterTwice(matches[1..], low, high);
      var rest := FilterByThreshold(matches[1..], low);
      if matches[0].score >= low {
        assert ([matches[0]] + rest)[1..] == rest;
      }
    }
  }

  /** Raising the threshold keeps a subsequence of what the lower threshold
      kept, and so never keeps more matches. */
  lemma ThresholdMonotone(matches: seq<Match>, low: int, high: int)
    requires low <= high
    ensures IsSubsequence(FilterByThreshold(matches, high), FilterByThreshold(matches, low))
    ensures |FilterByThreshold(matches, high)| <= |FilterByThreshold(matches, low)|
  {
    FilterTwice(matches, low, high);
    SubsequenceLength(FilterByThreshold(matches, high), FilterByThreshold(matches, low));
  }

  // ---------------------------------------------------------------------------
  // Rendering

  /** `f"{m[0]} ({m[1]})"`. The rendering loses nothing: `ParseMatch` reads
      the name and the score back, even when the name contains parentheses,
      since the score text never does. */
  function FormatMatch(m: Match): (r: string)
    ensures ParseMatch(r) == Some(m)
  {
    PieceParses(m.name, m.score);
    m.name + " (" + IntToString(m.score) + ")"
  }

  /** In `name (digits`, with no `(` among the digits, the last `(` is the
      one the rendering put there. */
  lemma LastOpenParen(name: string, digits: string)
    requires '(' !in digits
    ensures LastIndexOf(name + " (" + digits, '(') == |name| + 1
  {
    var body := name + " (" + digits;
    var p := |name| + 1;
    assert body[p] == '(';
    var head := name + " (";
    assert body == head + digits && |head| == p + 1;
    forall j | p < j < |body| ensures body[j] != '(' {
      assert body[j] == digits[j - |head|];
    }
    LastIndexOfIs(body, '(', p);
  }

  /** An occurrence with none after it is the last one. */
  lemma LastIndexOfIs(s: string, c: char, p: nat)
    requires p < |s| && s[p] == c
    requires forall j :: p < j < |s| ==> s[j] != c
    ensures LastIndexOf(s, c) == p
  {
  }

  lemma PieceParses(name: string, score: int)
    ensures ParseMatch(name + " (" + IntToString(score) + ")") == Some(Match(name, score))
  {
    var digits := IntToString(score);
    IntToStringRoundTrip(score);
    var piece := name + " (" + digits + ")";
    var body := piece[..|piece| - 1];
    assert body == name + " (" + digits;
    LastOpenParen(name, digits);
    var p := |name| + 1;
    assert body[p - 1] == ' ';
    assert body[p + 1..] == digits;
    assert body[..p - 1] == name;
  }

  function Pieces(filtered: seq<Match>): seq<string>
  {
    seq(|filtered|, k requires 0 <= k < |filtered| => FormatMatch(filtered[k]))
  }

  /** The display string of one row: the formatted matches joined by ", ", or
      the empty string when no match survived. */
  function MatchString(filtered: seq<Match>): (r: string)
    ensures r == "" <==> |filtered| == 0
  {
    if |filtered| > 0 then
      Join(", ", Pieces(filtered))
    else ""
  }

  /** The display string grows one piece per match, in order: a single match
      is its own piece, and every further match appends ", " and its piece. */
  lemma MatchStringAppend(filtered: seq<Match>, m: Match)
    ensures MatchString([m]) == FormatMatch(m)
    ensures |filtered| > 0 ==> MatchString(filtered + [m]) == MatchString(filtered) + ", " + FormatMatch(m)
  {
    assert Pieces([m]) == [FormatMatch(m)];
    if |filtered| > 0 {
      assert Pieces(filtered + [m]) == Pieces(filtered) + [FormatMatch(m)];
      JoinSnoc(", ", Pieces(filtered), FormatMatch(m));
    }
  }

  /** The last position of `c` in `s`, or -1. */
  function LastIndexOf(s: string, c: char): (p: int)
    ensures -1 <= p < |s|
    ensures p >= 0 ==> s[p] == c
    ensures forall j :: p < j < |s| ==> s[j] != c
  {
    if |s| == 0 then -1
    else if s[|s| - 1] == c then |s| - 1
    else LastIndexOf(s[..|s| - 1], c)
  }

  /** Read one rendered piece back: the name is everything before the last
      " (", the score the integer between it and the closing ")". */
  function ParseMatch(piece: string): Option<Match>
  {
    if |piece| > 0 && piece[|piece| - 1] == ')' then
      var body := piece[..|piece| - 1];
      var p := LastIndexOf(body, '(');
      if p >= 1 && body[p - 1] == ' ' then
        match ParseInt(body[p + 1..])
        case Some(v) => Some(Match(body[..p - 1], v))
        case None => None
      else None
    else None
  }

  // ---------------------------------------------------------------------------
  // The results loop

  /** One entry of the `Names` column: text, or a missing value (NaN/None). */
  datatype Cell = Text(value: string) | Missing

  /** What the page shows: a hint to enter names, the results table, or the
      error pandas raises when the two columns of the table differ in length. */
  datatype Screen = EnterNames | Table(names: seq<Cell>, topMatches: seq<string>) | LengthMismatch

  /** `s.strip()`: the text without its leading and trailing whitespace. It
      is empty exactly when the text is blank, and otherwise starts and ends
      with a non-space character. */
  function Strip(s: string): (r: string)
    ensures |r| <= |s|
    ensures r == "" <==> IsBlank(s)
    ensures |r| > 0 ==> !IsSpace(r[0]) && !IsSpace(r[|r| - 1])
    decreases |s|
  {
    if |s| == 0 then ""
    else if IsSpace(s[0]) then
      assert forall i :: 0 < i < |s| ==> s[i] == s[1..][i - 1];
      Strip(s[1..])
    else if IsSpace(s[|s| - 1]) then
      assert forall i :: 0 <= i < |s| - 1 ==> s[i] == s[..|s| - 1][i];
      Strip(s[..|s| - 1])
    else s
  }

  /** `r` is the piece of `s` that starts at `i`, with nothing but
      whitespace before and after it. */
  predicate PaddedAt(s: string, r: string, i: int)
  {
    0 <= i <= |s| - |r| && r == s[i..i + |r|] && IsBlank(s[..i]) && IsBlank(s[i + |r|..])
  }

  /** The stripped text is a piece of `s` with nothing but whitespace before
      and after it. */
  lemma {:induction false} StripSlice(s: string)
    ensures exists i :: PaddedAt(s, Strip(s), i)
    decreases |s|
  {
    var r := Strip(s);
    if |s| == 0 {
      assert PaddedAt(s, r, 0);
    } else if IsSpace(s[0]) {
      var t := s[1..];
      assert r == Strip(t);
      StripSlice(t);
      var i :| PaddedAt(t, r, i);
      BlankShift(s, i, r);
    } else if IsSpace(s[|s| - 1]) {
      var t := s[..|s| - 1];
      assert r == Strip(t);
      StripSlice(t);
      var i :| PaddedAt(t, r, i);
      BlankDropLast(s, i, r);
    } else {
      assert s[..0] == [] && s[|s|..] == [];
      assert PaddedAt(s, r, 0);
    }
  }

  /** One step of `StripSlice` past a leading space. */
  lemma BlankShift(s: string, i: int, r: string)
    requires 0 < |s| && IsSpace(s[0]) && PaddedAt(s[1..], r, i)
    ensures PaddedAt(s, r, i + 1)
  {
    var t := s[1..];
    assert s[..i + 1] == [s[0]] + t[..i];
    assert s[i + 1 + |r|..] == t[i + |r|..];
  }

  /** One step of `StripSlice` past a trailing space. */
  lemma BlankDropLast(s: string, i: int, r: string)
    requires 0 < |s| && IsSpace(s[|s| - 1]) && PaddedAt(s[..|s| - 1], r, i)
    ensures PaddedAt(s, r, i)
  {
    var t := s[..|s| - 1];
    assert s[..i] == t[..i];
    assert s[i + |r|..] == t[i + |r|..] + [s[|s| - 1]];
  }

  /** `not input_df.empty and input_df['Names'].str.strip().any()`: some
      entry, once stripped, is a non-empty string (`any` skips missing
      entries). That is, some entry is text with a non-whitespace
      character. */
  function HasInput(names: seq<Cell>): (b: bool)
    ensures b <==> exists i :: 0 <= i < |names| && names[i].Text? && !IsBlank(names[i].value)
  {
    exists i :: 0 <= i < |names| && names[i].Text? && Strip(names[i].value) != ""
  }

  /** The display string of one entered name against the OFAC names: empty
      exactly when none of the name's top matches reaches the threshold. */
  function RowFor(name: string, ofac: seq<string>, score: (string, string) -> Percent, threshold: int): (r: string)
    ensures r == "" <==>
      forall k :: 0 <= k < |GetTopMatches(name, ofac, score, DefaultLimit)| ==>
        GetTopMatches(name, ofac, score, DefaultLimit)[k].score < threshold
  {
    var top := GetTopMatches(name, ofac, score, DefaultLimit);
    FilterEmpty(top, threshold);
    MatchString(FilterByThreshold(top, threshold))
  }

  /** The per-name step of the loop at app.py:60-67. */
  function RowsFor(ofac: seq<string>, score: (string, string) -> Percent, threshold: int): string -> string
  {
    (name: string) => RowFor(name, ofac, score, threshold)
  }

  /** The positions of the entries that are text, in increasing order. */
  function TextPositions(names: seq<Cell>): (ix: seq<nat>)
    ensures forall k :: 0 <= k < |ix| ==> ix[k] < |names| && names[ix[k]].Text?
  {
    if |names| == 0 then []
    else
      var prefix := names[..|names| - 1];
      var earlier := TextPositions(prefix);
      assert forall k :: 0 <= k < |earlier| ==> names[earlier[k]] == prefix[earlier[k]];
      assert forall i :: 0 <= i < |prefix| ==> names[i] == prefix[i];
      if names[|names| - 1].Text? then earlier + [|names| - 1] else earlier
  }

  /** The positions are strictly increasing and every text entry's position
      is among them, so they are exactly the text positions, in order. */
  lemma {:induction false} TextPositionsExact(names: seq<Cell>)
    ensures forall j, k :: 0 <= j < k < |TextPositions(names)| ==> TextPositions(names)[j] < TextPositions(names)[k]
    ensures forall i :: 0 <= i < |names| && names[i].Text? ==> i in TextPositions(names)
  {
    if |names| > 0 {
      var prefix := names[..|names| - 1];
      TextPositionsExact(prefix);
      TextPositionsLast(names);
      var ix := TextPositions(prefix);
      assert forall i :: 0 <= i < |prefix| ==> names[i] == prefix[i];
      assert forall k :: 0 <= k < |ix| ==> ix[k] < |names| - 1;
    }
  }

  /** `names.dropna()`: the text of every entry that is not missing, in
      order. */
  function Present(names: seq<Cell>): (p: seq<string>)
    ensures |p| <= |names|
    ensures |p| == |names| <==> forall i :: 0 <= i < |names| ==> names[i].Text?
  {
    if |names| == 0 then []
    else
      var prefix := names[..|names| - 1];
      var rest := Present(prefix);
      assert forall i :: 0 <= i < |prefix| ==> names[i] == prefix[i];
      match names[|names| - 1]
      case Text(s) => rest + [s]
      case Missing => rest
  }

  lemma PresentLast(names: seq<Cell>)
    requires |names| > 0
    ensures Present(names) == Present(names[..|names| - 1]) +
      (if names[|names| - 1].Text? then [names[|names| - 1].value] else [])
  {
  }

  lemma TextPositionsLast(names: seq<Cell>)
    requires |names| > 0
    ensures TextPositions(names) == TextPositions(names[..|names| - 1]) +
      (if names[|names| - 1].Text? then [|names| - 1] else [])
  {
  }

  /** `dropna()` keeps exactly the text entries: one string per text
      position, that entry's text, in order. */
  lemma {:induction false} PresentAtPositions(names: seq<Cell>)
    ensures |Present(names)| == |TextPositions(names)|
    ensures forall k :: 0 <= k < |Present(names)| ==> Present(names)[k] == names[TextPositions(names)[k]].value
  {
    if |names| > 0 {
      var prefix := names[..|names| - 1];
      PresentAtPositions(prefix);
      PresentLast(names);
      TextPositionsLast(names);
      var ix := TextPositions(prefix);
      var p := Present(prefix);
      var ix2 := TextPositions(names);
      var p2 := Present(names);
      forall k | 0 <= k < |p2| ensures p2[k] == names[ix2[k]].value {
        if k < |p| {
          assert p2[k] == p[k] && ix2[k] == ix[k];
          assert names[ix[k]] == prefix[ix[k]];
        }
      }
    }
  }

  /** With no entry missing, every position is a text position. */
  lemma {:induction false} TextPositionsAllText(names: seq<Cell>)
    requires forall i :: 0 <= i < |names| ==> names[i].Text?
    ensures |TextPositions(names)| == |names|
    ensures forall k :: 0 <= k < |names| ==> TextPositions(names)[k] == k
  {
    if |names| > 0 {
      var prefix := names[..|names| - 1];
      TextPositionsAllText(prefix);
      assert TextPositions(names) == TextPositions(prefix) + [|names| - 1];
    }
  }

  /** `result` as the loop at app.py:59-67 builds it, appending the row
      string of each entry that `dropna()` keeps, and none for a missing
      entry. */
  function ResultColumnAsWritten(names: seq<Cell>, row: string -> string): (r: seq<string>)
    ensures |r| == |Present(names)|
    ensures forall k :: 0 <= k < |r| ==> r[k] == row(Present(names)[k])
    ensures |r| == |names| <==> forall i :: 0 <= i < |names| ==> names[i].Text?
  {
    if |names| == 0 then []
    else
      var prefix := names[..|names| - 1];
      var rest := ResultColumnAsWritten(prefix, row);
      match names[|names| - 1]
      case Text(s) => rest + [row(s)]
      case Missing => rest
  }

  /** The page as app.py:57-71 produces it. Building the table from the full
      `Names` column and the shorter `result` list fails in pandas. */
  function RenderScreenAsWritten(names: seq<Cell>, ofac: seq<string>, score: (string, string) -> Percent, threshold: int): (s: Screen)
    ensures s.EnterNames? <==> !HasInput(names)
    ensures s.LengthMismatch? <==> HasInput(names) && exists i :: 0 <= i < |names| && names[i].Missing?
    ensures s.Table? ==> s.names == names && |s.topMatches| == |names|
  {
    if !HasInput(names) then EnterNames
    else
      var result := ResultColumnAsWritten(names, RowsFor(ofac, score, threshold));
      if |result| != |names| then LengthMismatch else Table(names, result)
  }

  /** A concrete page that fails: a name, then an empty row the editor added. */
  lemma AsWrittenCounterexample(ofac: seq<string>, score: (string, string) -> Percent, threshold: int)
    ensures RenderScreenAsWritten([Text("Jan Kowalski"), Missing], ofac, score, threshold) == LengthMismatch
  {
    var names := [Text("Jan Kowalski"), Missing];
    var first := names[0].value;
    assert first[0] == 'J' && !IsSpace(first[0]);
    assert !IsBlank(first);
    assert HasInput(names);
    assert names[1].Missing?;
  }

  /** The results column as intended: one string per entry of `Names`, the
      empty string for a missing entry. Removing the missing entries' rows
      gives exactly the column the loop as written builds. */
  function ResultColumn(names: seq<Cell>, row: string -> string): (r: seq<string>)
    ensures |r| == |names|
    ensures forall i :: 0 <= i < |names| && names[i].Missing? ==> r[i] == ""
    ensures |ResultColumnAsWritten(names, row)| == |TextPositions(names)|
    ensures forall k :: 0 <= k < |TextPositions(names)| ==>
              ResultColumnAsWritten(names, row)[k] == r[TextPositions(names)[k]]
  {
    PresentAtPositions(names);
    seq(|names|, i requires 0 <= i < |names| => if names[i].Text? then row(names[i].value) else "")
  }

  /** The page as intended: a hint when nothing was entered, otherwise a table
      with exactly one results entry per entered row. */
  function RenderScreen(names: seq<Cell>, ofac: seq<string>, score: (string, string) -> Percent, threshold: int): (s: Screen)
    ensures s.EnterNames? <==> !HasInput(names)
    ensures s.Table? ==> s.names == names && |s.topMatches| == |names|
    ensures s.Table? ==> forall i :: 0 <= i < |names| && names[i].Text? ==>
              s.topMatches[i] == RowFor(names[i].value, ofac, score, threshold)
    ensures s.Table? ==> forall i :: 0 <= i < |names| && names[i].Missing? ==> s.topMatches[i] == ""
    ensures !s.LengthMismatch?
  {
    if !HasInput(names) then EnterNames
    else
      var column := ResultColumn(names, RowsFor(ofac, score, threshold));
      assert forall i :: 0 <= i < |names| && names[i].Text? ==>
        column[i] == RowsFor(ofac, score, threshold)(names[i].value);
      Table(names, column)
  }

  /** Where the code as written works (no entry missing), the corrected page
      is the same page. */
  lemma ScreenAgreesWithoutMissing(names: seq<Cell>, ofac: seq<string>, score: (string, string) -> Percent, threshold: int)
    requires forall i :: 0 <= i < |names| ==> names[i].Text?
    ensures RenderScreen(names, ofac, score, threshold) == RenderScreenAsWritten(names, ofac, score, threshold)
  {
    AsWrittenColumnMatches(names, RowsFor(ofac, score, threshold));
  }

  lemma AsWrittenColumnMatches(names: seq<Cell>, row: string -> string)
    requires forall i :: 0 <= i < |names| ==> names[i].Text?
    ensures ResultColumnAsWritten(names, row) == ResultColumn(names, row)
  {
    TextPositionsAllText(names);
    var r := ResultColumnAsWritten(names, row);
    var col := ResultColumn(names, row);
    forall i | 0 <= i < |names| ensures r[i] == col[i] {
      assert TextPositions(names)[i] == i;
    }
  }
}

=== FILE: strings.dfy ===
/** String and sequence helpers shared by the matcher: Python's `sep.join`,
    decimal rendering of integers (as `str(int)` and f-strings print them),
    and the subsequence relation used to state order preservation. */
module Strings {

  datatype Option<+T> = None | Some(value: T)

  /** `sep.join(parts)`: the parts in order, with `sep` between neighbours.
      The joined string begins with the first part. */
  function Join(sep: string, parts: seq<string>): (r: string)
    ensures |parts| > 0 ==> parts[0] <= r
  {
    if |parts| == 0 then ""
    else if |parts| == 1 then parts[0]
    else
      var rest := Join(sep, parts[1..]);
      assert (parts[0] + sep + rest)[..|parts[0]|] == parts[0];
      parts[0] + sep + rest
  }

  /** The parts run together with no separator: `''.join(parts)`. */
  function Concat(parts: seq<string>): string
  {
    if |parts| == 0 then "" else parts[0] + Concat(parts[1..])
  }

  /** Appending a part appends the separator and that part. */
  lemma {:induction false} JoinSnoc(sep: string, parts: seq<string>, last: string)
    requires |parts| > 0
    ensures Join(sep, parts + [last]) == Join(sep, parts) + sep + last
  {
    if |parts| == 1 {
      assert parts + [last] == [parts[0], last];
      assert (parts + [last])[1..] == [last];
    } else {
      var rest := parts[1..];
      assert (parts + [last])[1..] == rest + [last];
      JoinSnoc(sep, rest, last);
      calc {
        Join(sep, parts + [last]);
        parts[0] + sep + Join(sep, rest + [last]);
        parts[0] + sep + (Join(sep, rest) + sep + last);
        (parts[0] + sep + Join(sep, rest)) + sep + last;
      }
    }
  }

  /** `a` can be obtained from `b` by deleting elements: the kept elements
      keep their relative order. */
  predicate IsSubsequence<T(==)>(a: seq<T>, b: seq<T>)
    decreases |b|
  {
    |a| == 0 ||
    (|b| > 0 && ((a[0] == b[0] && IsSubsequence(a[1..], b[1..])) || IsSubsequence(a, b[1..])))
  }

  /** Prepending the same element to both sides, or to the longer side only,
      keeps the subsequence relation. */
  lemma SubsequenceCons<T>(x: T, a: seq<T>, b: seq<T>)
    requires IsSubsequence(a, b)
    ensures IsSubsequence([x] + a, [x] + b)
    ensures IsSubsequence(a, [x] + b)
  {
    assert ([x] + a)[1..] == a;
    assert ([x] + b)[1..] == b;
  }

  lemma {:induction false} SubsequenceLength<T>(a: seq<T>, b: seq<T>)
    requires IsSubsequence(a, b)
    ensures |a| <= |b|
    decreases |b|
  {
    if |a| > 0 {
      if a[0] == b[0] && IsSubsequence(a[1..], b[1..]) {
        SubsequenceLength(a[1..], b[1..]);
      } else {
        SubsequenceLength(a, b[1..]);
      }
    }
  }

  predicate IsDigit(c: char)
  {
    '0' <= c <= '9'
  }

  predicate AllDigits(s: string)
  {
    forall i :: 0 <= i < |s| ==> IsDigit(s[i])
  }

  function DigitChar(d: nat): (c: char)
    requires d < 10
    ensures IsDigit(c) && c as int - '0' as int == d
  {
    ('0' as int + d) as char
  }

  /** The decimal rendering of a natural number: no sign, no leading zeros. */
  function NatToDecimal(n: nat): (s: string)
    ensures |s| > 0 && AllDigits(s)
    ensures s[0] == '0' ==> n == 0
  {
    if n < 10 then [DigitChar(n)] else NatToDecimal(n / 10) + [DigitChar(n % 10)]
  }

  /** The value of a string of decimal digits (the empty string denotes 0). */
  function DecimalValue(s: string): nat
    requires AllDigits(s)
  {
    if |s| == 0 then 0
    else 10 * DecimalValue(s[..|s| - 1]) + (s[|s| - 1] as int - '0' as int)
  }

  lemma {:induction false} DecimalRoundTrip(n: nat)
    ensures DecimalValue(NatToDecimal(n)) == n
  {
    if n >= 10 {
      var s := NatToDecimal(n);
      assert s[..|s| - 1] == NatToDecimal(n / 10);
      DecimalRoundTrip(n / 10);
    }
  }

  /** `str(x)` for a Python int: an optional minus sign and the decimal digits. */
  function IntToString(x: int): (s: string)
    ensures |s| > 0
    ensures s[0] == '-' <==> x < 0
    ensures '(' !in s && ')' !in s
    ensures s[0] == '0' ==> x == 0
    ensures x < 0 ==> |s| > 1 && s[1] != '0'
  {
    if x < 0 then "-" + NatToDecimal(-x) else NatToDecimal(x)
  }

  /** The integer a `str(int)` rendering denotes, if `s` is one. */
  function ParseInt(s: string): Option<int>
  {
    if |s| > 0 && s[0] == '-' then
      (if |s| > 1 && AllDigits(s[1..]) then var v: int := DecimalValue(s[1..]); Some(-v) else None)
    else if |s| > 0 && AllDigits(s) then Some(DecimalValue(s))
    else None
  }

  lemma IntToStringRoundTrip(x: int)
    ensures ParseInt(IntToString(x)) == Some(x)
  {
    if x < 0 {
      var s := IntToString(x);
      assert s[1..] == NatToDecimal(-x);
      DecimalRoundTrip(-x);
    } else {
      DecimalRoundTrip(x);
    }
  }
}
